=== FILE: README.md ===
# Paid image generation in LightningTipBot

This project models how LightningTipBot's Telegram handlers sell a DALL·E
image generation for a Lightning payment. The model covers the whole
lifecycle in `internal/telegram/generate.go`:

- `generateImages` captures the prompt. A bare `/generate` asks for the
  prompt and parks the user's session in the "enter prompt" state.
  `/generate <prompt>` forwards the text directly.
- `confirmGenerateImages` is the invoice gate. It resets the session and
  checks the prompt and the wallet. It looks up the bot's own user and
  creates an invoice for the configured price, with the prompt as its
  payload. It stores the invoice. When the balance covers the price it pays
  the invoice through the internal `/pay` command; otherwise it shows the
  invoice as a QR code and stores the invoice again with the QR message.
- `generateDalleImages` runs when the invoice is paid. It checks the payer,
  builds the provider client, submits the prompt once and polls the task
  until a terminal status or an error. Then it delivers every artifact. A
  client error, a submission error, a polling error (the five-minute deadline
  included) or a rejection triggers the compensating refund.
- `downloadAndSendImages` delivers one artifact. It downloads the artifact,
  writes it to `data/dalle/<id>.png`, reopens it and sends it as a photo.
  Every handle it opened is closed by a deferred close.
- `dalleRefundUser` is the two-leg refund. It creates an inbound invoice for
  the price on the user's wallet, then pays it from the bot's wallet.

Each handler is a pure function. It returns its trace of observable effects
together with its result. Effects include session writes, invoice creation
and storage, messages, submission, polls, refund legs, delivery steps and
closes. Every collaborator the handler calls is an oracle value in a "world"
record: the bot lookup, the wallet and the provider, the file system and the
payment handler. The trace marks each call of `dalleRefundUser` with
`Refund(user)` and each call of `downloadAndSendImages` with
`Deliver(artifact)`. Properties are stated over the trace:

- counts, with `Count`;
- ordering, with `Precedes`;
- the artifacts attempted, with `Attempts`;
- the handles closed, with `Closed`;
- the session state left behind, with `SessionAfter`.

Files:

| file | contents |
|---|---|
| `outcomes.dfy` | errors, `Option`, `Result` and `Outcome` |
| `effects.dfy` | users, invoices, effects, and the trace measures with their append lemmas |
| `text.dfy` | Go's `strings.Split` for a one-character separator |
| `prompt_capture.dfy` | `generateImages` |
| `invoice_gate.dfy` | `confirmGenerateImages` |
| `refund.dfy` | `dalleRefundUser` |
| `polling.dfy` | the status-polling loop |
| `delivery.dfy` | `downloadAndSendImages` and the delivery loop |
| `orchestrator.dfy` | `generateDalleImages` and its end-to-end properties |
| `scenarios.dfy` | concrete runs |

After a rejection the handler refunds the payer, then still runs the
delivery loop over the rejected task's artifacts (lines 144-159).
`Orchestrator.DeliveryAttempts` and
`Scenarios.RejectedIsRefundedAndStillDelivered` state this behaviour.

## Model

| member | source | states |
|---|---|---|
| Text.Split | internal/telegram/generate.go:31 | Splitting on a one-character separator gives one more piece than there are separators. There are at least two pieces exactly when the separator occurs. No piece contains the separator. |
| Text.JoinSplit | internal/telegram/generate.go:31 | Splitting loses nothing: joining the pieces with the separator gives back the original text. |
| PromptCapture.GenerateImages | internal/telegram/generate.go:24-41 | A user without a wallet gets the no-wallet error and nothing happens. Text with no space sets the session to "enter prompt" and asks for the prompt. Text with a space hands the memo text to the confirm step. |
| PromptCapture.CommandOutcomes | internal/telegram/generate.go:24-41 | With no wallet the session is unchanged. A bare command leaves the session awaiting a prompt and creates no invoice. A command with text leaves the session idle, and every invoice it creates is for the price, with the memo text as payload. |
| InvoiceGate.Checked | internal/telegram/generate.go:52-97 | An empty prompt fails with "prompt not given" and has no effect. A missing wallet fails with "no wallet" and has no effect. A failed bot lookup creates no invoice and returns the lookup's error with no effect. A failed invoice creation returns the creation's error right after the `createInvoiceWithEvent` call, with no other effect. Once the lookup succeeds, the first effect is the `createInvoiceWithEvent` call for an invoice to the bot's wallet, and there is no other such call. |
| InvoiceGate.Settle | internal/telegram/generate.go:70-97 | After creation nothing is reset or created again. Every stored record carries the invoice's request, the payer and the payment request. |
| InvoiceGate.ConfirmGenerateImages | internal/telegram/generate.go:47-98 | The session is reset first and never written again. The empty-prompt and no-wallet errors leave only the reset. A failed bot lookup leaves only the reset and returns the lookup's error. A failed invoice creation leaves only the reset and the `createInvoiceWithEvent` call, and returns the creation's error. `createInvoiceWithEvent` is called for the price, prompt and callback exactly when the prompt, the wallet and the bot lookup all pass. Every stored record is that invoice with the payer set. Success implies that an invoice was created. |
| InvoiceGate.InvoiceCount | internal/telegram/generate.go:52-67 | The handler calls `createInvoiceWithEvent` exactly once when the prompt, wallet and bot lookup all pass, and never otherwise. |
| InvoiceGate.SettleCounts | internal/telegram/generate.go:70-96 | After creation there is one internal payment exactly when the balance covers the price, and then no QR code. The invoice is stored twice on the QR path and once otherwise. |
| InvoiceGate.InternalPayIffCovered | internal/telegram/generate.go:80-84 | Once the invoice exists, `/pay <payment request>` runs exactly when the balance seen covers the price. The handler then returns the payment handler's outcome. |
| InvoiceGate.PaysOnceOrNever | internal/telegram/generate.go:80-90 | When covered there is exactly one internal payment and no QR code. When not covered there is no internal payment. |
| InvoiceGate.StoredBeforeShown | internal/telegram/generate.go:69-94 | Once the invoice exists, it is stored with the payer attached as the third effect, right after the reset and the creation. Every internal payment and every QR code comes after that store. |
| InvoiceGate.QrFailureEditsInvoice | internal/telegram/generate.go:86-91 | Below the price, when the QR code cannot be encoded, the invoice message is edited into an error notice. The handler fails with the encoder's error, and no QR code is sent. |
| InvoiceGate.QrPathStoresTwice | internal/telegram/generate.go:70-97 | Below the price, with the QR code encoded, the handler succeeds after sending the QR code. It stores the invoice twice, and the last effect stores it with the QR message. |
| InvoiceGate.ConfirmLeavesSessionIdle | internal/telegram/generate.go:48-50 | Whatever the earlier session state and whatever happens next, the user's session ends idle. |
| InvoiceGate.FailedBalanceShowsQr | internal/telegram/generate.go:72-94 | A failed balance lookup counts as a zero balance. For a positive price it never takes the internal payment path, and it shows the QR code when encoding succeeds. |
| Refund.DalleRefundUser | internal/telegram/generate.go:190-218 | With no wallet or a failed bot lookup, nothing moves and that error is returned. Once both pass, the first effect creates the refund invoice. The only invoice created is an inbound one on the user's wallet, for the price, with the refund memo. A payment happens only when that invoice was created, and it is paid from the bot's wallet. There is exactly one payment in that case. The refund succeeds exactly when every leg succeeds, and otherwise returns the first failing leg's error. |
| Polling.PollLoop | internal/telegram/generate.go:129-151 | Every call polls the submitted task id, and the loop makes at least one call. Every reply before the last neither failed nor was terminal. The last reply, or the deadline error once the replies run out, stops the loop and decides its exit. |
| Polling.StopsAtFirst | internal/telegram/generate.go:129-151 | When reply n is the first stopping one, the loop makes exactly n+1 calls and exits on that reply. |
| Polling.RunsOutAtDeadline | internal/telegram/generate.go:120-140 | When no reply before the deadline stops the loop, it makes one more call than there are replies, and it fails with the deadline error. |
| Delivery.DownloadAndSendImages | internal/telegram/generate.go:165-188 | Every step is a delivery step. A failed step stops the later ones: the file is created only after the download passed, written only after the creation passed, and reopened only after the write passed. The result passes exactly when all four steps pass, and the photo is sent exactly then, to the payer and from the cache file. Otherwise the result is the error of the first failing step. |
| Delivery.StepsInOrder | internal/telegram/generate.go:165-186 | The download is always the first step. The file creation, the write and the reopen follow in that order, each only after the step before it passed. The photo is the fifth effect, after all four steps passed. |
| Delivery.CachedUnderArtifactPath | internal/telegram/generate.go:171-181 | The file created, written and reopened is always `data/dalle/<id>.png`. |
| Delivery.ReleasedInReverse | internal/telegram/generate.go:170-185 | The deferred closes release exactly the handles acquired, in reverse order of acquisition. |
| Delivery.DeferredCloses | internal/telegram/generate.go:165-188 | Whichever step fails, the handles acquired are closed exactly once each, in reverse order, and every close comes after all the work. |
| Delivery.DeliverFrom | internal/telegram/generate.go:154-159 | From position k on, the loop attempts exactly the remaining artifacts, in order. Every photo goes to the payer. |
| Delivery.DeliverAll | internal/telegram/generate.go:154-159 | The loop attempts every artifact exactly once, in order, whatever earlier attempts returned. Every photo goes to the payer. |
| Delivery.SiblingsSentFrom | internal/telegram/generate.go:154-159 | From position k on, every artifact whose own steps all succeed is sent. |
| Delivery.SiblingsStillSent | internal/telegram/generate.go:154-159 | A failed delivery does not hold back the others: every artifact whose steps all succeed is sent to the payer. |
| Orchestrator.RefundCall | internal/telegram/generate.go:190-218 | One refund call has exactly one marker. Once the user has a wallet and the bot lookup passes, it creates the priced inbound refund invoice on the user's wallet. It makes exactly one payment when that invoice is also created, and none otherwise. Any invoice it creates is that refund invoice. |
| Orchestrator.GenerateDalleImages | internal/telegram/generate.go:101-162 | An invalid payer, meaning none or one without a wallet, ends the handler with no effect. Client failure, submission failure, and a polling phase (ending in error or in a terminal status) each happen exactly when the world's answers lead there. Client and submission failures carry the collaborator's error. A finished task is in a terminal status. |
| Orchestrator.Phases | internal/telegram/generate.go:109-159 | The trace is the opening, then the polls, then the refund if any, then the deliveries if any. The ending says which of these ran. |
| Orchestrator.RefundCount | internal/telegram/generate.go:114-148 | Exactly one refund follows a client, submission or polling error or a rejection. There is none after success or for an invalid payer. |
| Orchestrator.RefundPaysWhenDue | internal/telegram/generate.go:114-148 | A paid event makes exactly one compensating payment when its ending calls for a refund and the refund's bot lookup and invoice creation both pass. Otherwise it makes none. |
| Orchestrator.AtMostOneRefundPayment | internal/telegram/generate.go:114-148 | At most one compensating payment leaves the bot's wallet per paid event. |
| Orchestrator.DeliveryAttempts | internal/telegram/generate.go:141-159 | When polling ends on a terminal status, the artifacts attempted are exactly the task's, in order, even after a rejection. Otherwise none is attempted. |
| Orchestrator.SubmitCount | internal/telegram/generate.go:112-128 | The prompt is submitted exactly once when the payer is valid and the client was built, and never otherwise. |
| Orchestrator.PollCount | internal/telegram/generate.go:129-151 | There is no poll without a submitted task. A submitted task is polled once per iteration of the loop. |
| Orchestrator.SubmitBeforePolls | internal/telegram/generate.go:123-134 | Submission precedes every poll. |
| Orchestrator.PollsBeforeRefund | internal/telegram/generate.go:131-148 | Every poll precedes the refund. |
| Orchestrator.PollsBeforeDeliveries | internal/telegram/generate.go:131-159 | Every poll precedes every delivery. |
| Orchestrator.RefundBeforeDeliveries | internal/telegram/generate.go:144-159 | After a rejection the refund precedes every delivery. |
| Orchestrator.ActsOnInvoiceData | internal/telegram/generate.go:122-186 | Every submission sends the invoice's callback data as the prompt. Every poll asks about the task id that the submission returned. Every photo goes to the invoice's payer. |
| Orchestrator.RefundsArePriced | internal/telegram/generate.go:200-206 | Every refund invoice of a paid event is for the price, inbound, on the payer's own wallet, with the refund memo. |
| Scenarios.SucceededWithOneFailedDownload | internal/telegram/generate.go:129-187 | Two pending replies come before success with two artifacts, and the first download fails. Both artifacts are attempted, the second is sent, there is no refund, and there are three polls. |
| Scenarios.RejectedIsRefundedAndStillDelivered | internal/telegram/generate.go:141-159 | A rejection after one pending reply is refunded once, and its artifact is still attempted, after two polls. |
| Scenarios.DeadlineIsRefunded | internal/telegram/generate.go:120-140 | The task is still pending at the deadline. The handler fails with the deadline error after three polls, refunds once and delivers nothing. |
| Scenarios.CoveredBalancePaysInternally | internal/telegram/generate.go:64-84 | A balance above the price creates one invoice and pays it through `/pay` exactly once, without a QR code. |

## Left out

- `anyTextHandler` (line 25) is not part of this model. Its effect on the command is not visible.
- `GetMemoFromCommand` (line 39) is not part of this model. Its result is the oracle value `PromptWorld.memo`.
- `LoadUser`, `GetUser`, `createInvoiceWithEvent`, `GetUserBalance`, `payHandler`, the wallet's `Invoice` and `Pay`, the provider client and `qrcode.Encode` are not part of this model. Each is an oracle result in a world record.
- InvoiceGate.BalanceSeen: the model assumes that a failed `GetUserBalance` yields balance 0. Its code is not shown, and Go does not zero a result when an error is returned.
- The message texts and `Translate` are left out. Each message effect keeps only its identifying fields. The prompt request, the pay message and the wait message name their recipient. The QR code names its recipient and the payment request. A photo names its recipient and the cache file it is read from. The error edit names the invoice message it replaces.
- `time.Sleep` between polls and the five-minute `context.WithTimeout` are left out. The replies given before the deadline are a finite sequence, and any poll after them fails with `DeadlineExceeded`.
- The deadline also bounds `Generate` and `Download`. The model does not tie those errors to it: their outcomes are free oracle values.
- Logging (`log.*`, `fmt.Printf`) and `runtime.IgnoreError` around `Bunt.Set` are left out. A store is recorded as an effect, and its error is ignored, as in the code.
- The bytes `io.Copy` moves and the photo contents are left out. Only the step outcomes and the paths are modelled.
- Line 65 sets `invoice.Payer` before the error check. Whether that dereferences nil depends on `createInvoiceWithEvent`, which is not part of this model. The model attaches the payer only to a created invoice.
- `dalleRefundUser` dereferences the bot's `me.Wallet` without a nil check. The model assumes the bot's own user has a wallet.
- The error `dalleRefundUser` returns is discarded by its callers, as in the code. The model keeps the refund's legs in the trace and drops the result.
- Concurrency, duplicate invoice events and redelivery are left out. Each paid event is one sequential run.
- Go's `int`/`int64` widths for the price and the balance are left out. Amounts are unbounded integers, because the code never does arithmetic on them.

=== FILE: delivery.dfy ===
/** `downloadAndSendImages` and the loop that calls it once per artifact:
    download, write to the local cache, reopen, send; every handle opened is
    released by a deferred close when the function returns. */
module Delivery {
  import opened Outcomes
  import opened Effects

  /** The outcomes of the four fallible steps of one delivery: the provider
      download, `os.Create`, `io.Copy` and `os.OpenFile`. */
  datatype DeliverySteps = DeliverySteps(download: Outcome, create: Outcome, copy: Outcome, reopen: Outcome)

  predicate AllPass(s: DeliverySteps)
  {
    s.download.Pass? && s.create.Pass? && s.copy.Pass? && s.reopen.Pass?
  }

  /** The local cache file of an artifact. */
  function CachePath(id: string): string
  {
    "data/dalle/" + id + ".png"
  }

  /** The handles the successful steps acquired, in acquisition order: the
      download stream, the file written, and the file reopened for reading. */
  function Acquired(id: string, s: DeliverySteps): seq<Handle>
  {
    (if s.download.Pass? then [DownloadStream(id)] else [])
    + (if s.download.Pass? && s.create.Pass? then [WriteFile(CachePath(id))] else [])
    + (if AllPass(s) then [ReadFile(CachePath(id))] else [])
  }

  function Reverse(hs: seq<Handle>): (rs: seq<Handle>)
    ensures |rs| == |hs|
    ensures forall i :: 0 <= i < |hs| ==> rs[i] == hs[|hs| - 1 - i]
  {
    if |hs| == 0 then [] else Reverse(hs[1..]) + [hs[0]]
  }

  /** The deferred closes, run in reverse order of the `defer` statements
      that were reached: the reopened file, the written file, the stream. */
  function Released(id: string, s: DeliverySteps): (es: seq<Effect>)
    ensures forall e :: e in es ==> e.Close?
  {
    var path := CachePath(id);
    if s.download.Fail? then []
    else if s.create.Fail? then [Close(DownloadStream(id))]
    else if !AllPass(s) then [Close(WriteFile(path)), Close(DownloadStream(id))]
    else [Close(ReadFile(path)), Close(WriteFile(path)), Close(DownloadStream(id))]
  }

  lemma {:induction false} ClosedWork(es: seq<Effect>)
    requires forall e :: e in es ==> !e.Close?
    ensures Closed(es) == []
  {
    if |es| > 0 {
      assert es[0] in es;
      assert forall e :: e in es[1..] ==> e in es;
      ClosedWork(es[1..]);
    }
  }

  /** The calls made before returning: every step up to and including the
      first that fails, and the photo when none fails. A step is reached
      only when every earlier step passed. */
  function WorkDone(id: string, to: UserId, s: DeliverySteps): (work: seq<Effect>)
    ensures forall e :: e in work ==> IsDeliveryStep(e) && !e.Deliver? && !e.Close?
    ensures SendPhoto(to, CachePath(id)) in work <==> AllPass(s)
    ensures forall e :: e in work && e.SendPhoto? ==> e == SendPhoto(to, CachePath(id))
    ensures forall e :: e in work && (e.CreateFile? || e.CopyToFile? || e.OpenFile?) ==>
              e.path == CachePath(id)
    ensures CreateFile(CachePath(id)) in work <==> s.download.Pass?
    ensures CopyToFile(CachePath(id)) in work <==> s.download.Pass? && s.create.Pass?
    ensures OpenFile(CachePath(id)) in work <==> s.download.Pass? && s.create.Pass? && s.copy.Pass?
  {
    var path := CachePath(id);
    if s.download.Fail? then [Download(id)]
    else if s.create.Fail? then [Download(id), CreateFile(path)]
    else if s.copy.Fail? then [Download(id), CreateFile(path), CopyToFile(path)]
    else if s.reopen.Fail? then [Download(id), CreateFile(path), CopyToFile(path), OpenFile(path)]
    else [Download(id), CreateFile(path), CopyToFile(path), OpenFile(path), SendPhoto(to, path)]
  }

  /** The error of the first failing step, or success. */
  function FirstFailure(s: DeliverySteps): (o: Outcome)
    ensures o.Pass? <==> AllPass(s)
    ensures s.download.Fail? ==> o == s.download
    ensures s.download.Pass? && s.create.Fail? ==> o == s.create
    ensures s.download.Pass? && s.create.Pass? && s.copy.Fail? ==> o == s.copy
    ensures s.download.Pass? && s.create.Pass? && s.copy.Pass? && s.reopen.Fail? ==> o == s.reopen
  {
    if s.download.Fail? then s.download
    else if s.create.Fail? then s.create
    else if s.copy.Fail? then s.copy
    else if s.reopen.Fail? then s.reopen
    else Pass
  }

  function DownloadAndSendImages(id: string, to: UserId, s: DeliverySteps): (r: Run)
    ensures forall e :: e in r.effects ==> IsDeliveryStep(e) && !e.Deliver?
    ensures r.result.Pass? <==> AllPass(s)
    ensures SendPhoto(to, CachePath(id)) in r.effects <==> AllPass(s)
    ensures forall e :: e in r.effects && e.SendPhoto? ==> e == SendPhoto(to, CachePath(id))
    ensures s.download.Fail? ==> r.result == s.download
    ensures s.download.Pass? && s.create.Fail? ==> r.result == s.create
    ensures s.download.Pass? && s.create.Pass? && s.copy.Fail? ==> r.result == s.copy
    ensures s.download.Pass? && s.create.Pass? && s.copy.Pass? && s.reopen.Fail? ==> r.result == s.reopen
    ensures CreateFile(CachePath(id)) in r.effects <==> s.download.Pass?
    ensures CopyToFile(CachePath(id)) in r.effects <==> s.download.Pass? && s.create.Pass?
    ensures OpenFile(CachePath(id)) in r.effects <==> s.download.Pass? && s.create.Pass? && s.copy.Pass?
  {
    Run(WorkDone(id, to, s) + Released(id, s), FirstFailure(s))
  }

  /** Every file the delivery creates, writes or reopens is the artifact's
      cache file. */
  lemma CachedUnderArtifactPath(id: string, to: UserId, s: DeliverySteps)
    ensures forall e :: e in DownloadAndSendImages(id, to, s).effects && (e.CreateFile? || e.CopyToFile? || e.OpenFile?) ==>
              e.path == CachePath(id)
  {
  }

  /** The steps run in source order: the download first, then the file
      creation, the write and the reopen, each only once the step before it
      passed, and the photo last of all. */
  lemma StepsInOrder(id: string, to: UserId, s: DeliverySteps)
    ensures var es := DownloadAndSendImages(id, to, s).effects;
      && |es| >= 1 && es[0] == Download(id)
      && (s.download.Pass? ==> |es| >= 2 && es[1] == CreateFile(CachePath(id)))
      && (s.download.Pass? && s.create.Pass? ==> |es| >= 3 && es[2] == CopyToFile(CachePath(id)))
      && (s.download.Pass? && s.create.Pass? && s.copy.Pass? ==> |es| >= 4 && es[3] == OpenFile(CachePath(id)))
      && (AllPass(s) ==> |es| >= 5 && es[4] == SendPhoto(to, CachePath(id)))
  {
  }

  /** The deferred closes release the acquired handles in reverse order. */
  lemma ReleasedInReverse(id: string, s: DeliverySteps)
    ensures Closed(Released(id, s)) == Reverse(Acquired(id, s))
  {
    var hs := Acquired(id, s);
    var path := CachePath(id);
    var released := Released(id, s);
    if s.download.Fail? {
      assert hs == [];
    } else if s.create.Fail? {
      assert hs == [DownloadStream(id)];
    } else if !AllPass(s) {
      assert hs == [DownloadStream(id), WriteFile(path)];
      assert released == [Close(WriteFile(path))] + [Close(DownloadStream(id))];
      ClosedAppend([Close(WriteFile(path))], [Close(DownloadStream(id))]);
    } else {
      assert hs == [DownloadStream(id), WriteFile(path), ReadFile(path)];
      assert released == [Close(ReadFile(path))] + [Close(WriteFile(path))] + [Close(DownloadStream(id))];
      ClosedAppend([Close(ReadFile(path))], [Close(WriteFile(path))]);
      ClosedAppend([Close(ReadFile(path))] + [Close(WriteFile(path))], [Close(DownloadStream(id))]);
    }
  }

  /** Whatever step fails, every handle acquired is closed exactly once, in
      reverse order of acquisition, and only after all the work is done. */
  lemma DeferredCloses(id: string, to: UserId, s: DeliverySteps)
    ensures var es := DownloadAndSendImages(id, to, s).effects;
      Closed(es) == Reverse(Acquired(id, s)) && Precedes(es, IsWork, IsClose)
  {
    var work := WorkDone(id, to, s);
    var released := Released(id, s);
    ClosedAppend(work, released);
    ClosedWork(work);
    ReleasedInReverse(id, s);
    PrecedesAppend(work, released, IsWork, IsClose);
  }

  /** One attempt of the loop records exactly its own artifact. */
  lemma AttemptRecordsArtifact(id: string, to: UserId, s: DeliverySteps)
    ensures Attempts([Deliver(id)] + DownloadAndSendImages(id, to, s).effects) == [id]
  {
    var attempt := DownloadAndSendImages(id, to, s).effects;
    AttemptsAppend([Deliver(id)], attempt);
    AttemptsNone(attempt);
  }

  lemma SuffixFrom<T>(s: seq<T>, k: nat)
    requires k < |s|
    ensures s[k..] == [s[k]] + s[k + 1..]
  {
  }

  /** The delivery loop from position `k` on: one attempt per artifact, in
      order, whatever the earlier attempts returned. `steps(k)` are the step
      outcomes of the artifact at position `k`. */
  function DeliverFrom(to: UserId, artifacts: seq<string>, steps: nat -> DeliverySteps, k: nat): (es: seq<Effect>)
    requires k <= |artifacts|
    ensures forall e :: e in es ==> IsDeliveryStep(e)
    ensures forall e :: e in es && e.SendPhoto? ==> e.user == to
    ensures Attempts(es) == artifacts[k..]
    decreases |artifacts| - k
  {
    if k == |artifacts| then []
    else
      var attempt := DownloadAndSendImages(artifacts[k], to, steps(k)).effects;
      var rest := DeliverFrom(to, artifacts, steps, k + 1);
      AttemptRecordsArtifact(artifacts[k], to, steps(k));
      AttemptsAppend([Deliver(artifacts[k])] + attempt, rest);
      SuffixFrom(artifacts, k);
      [Deliver(artifacts[k])] + attempt + rest
  }

  /** The loop over all the artifacts of a task. */
  function DeliverAll(to: UserId, artifacts: seq<string>, steps: nat -> DeliverySteps): (es: seq<Effect>)
    ensures forall e :: e in es ==> IsDeliveryStep(e)
    ensures forall e :: e in es && e.SendPhoto? ==> e.user == to
    ensures Attempts(es) == artifacts
  {
    assert artifacts[0..] == artifacts;
    DeliverFrom(to, artifacts, steps, 0)
  }

  /** Effect `e` is among those of the delivery loop from position `k`. */
  predicate InLoopFrom(e: Effect, to: UserId, artifacts: seq<string>, steps: nat -> DeliverySteps, k: nat)
    requires k <= |artifacts|
  {
    e in DeliverFrom(to, artifacts, steps, k)
  }

  /** The artifact at `k` is sent when its steps all succeed. */
  lemma SentHere(to: UserId, artifacts: seq<string>, steps: nat -> DeliverySteps, k: nat)
    requires k < |artifacts| && AllPass(steps(k))
    ensures InLoopFrom(SendPhoto(to, CachePath(artifacts[k])), to, artifacts, steps, k)
  {
  }

  /** What the later attempts do is part of the loop from `k`. */
  lemma KeptLater(to: UserId, artifacts: seq<string>, steps: nat -> DeliverySteps, k: nat, e: Effect)
    requires k < |artifacts| && InLoopFrom(e, to, artifacts, steps, k + 1)
    ensures InLoopFrom(e, to, artifacts, steps, k)
  {
  }

  /** A failed artifact does not hold back its siblings: every artifact at or
      after `k` whose own steps all succeed is sent to the payer. */
  lemma {:induction false} SiblingsSentFrom(to: UserId, artifacts: seq<string>, steps: nat -> DeliverySteps, k: nat, p: nat)
    requires k <= p < |artifacts| && AllPass(steps(p))
    ensures InLoopFrom(SendPhoto(to, CachePath(artifacts[p])), to, artifacts, steps, k)
    decreases p - k, 1
  {
    if p == k {
      SentHere(to, artifacts, steps, k);
    } else {
      SentBeyond(to, artifacts, steps, k, p);
    }
  }

  /** The inductive step: an artifact after position `k` is sent by the
      attempts after the one at `k`. */
  lemma {:induction false} SentBeyond(to: UserId, artifacts: seq<string>, steps: nat -> DeliverySteps, k: nat, p: nat)
    requires k < p < |artifacts| && AllPass(steps(p))
    ensures InLoopFrom(SendPhoto(to, CachePath(artifacts[p])), to, artifacts, steps, k)
    decreases p - k, 0
  {
    SiblingsSentFrom(to, artifacts, steps, k + 1, p);
    KeptLater(to, artifacts, steps, k, SendPhoto(to, CachePath(artifacts[p])));
  }

  /** Every artifact whose steps all succeed is sent, whatever happened to
      the others. */
  lemma SiblingsStillSent(to: UserId, artifacts: seq<string>, steps: nat -> DeliverySteps, p: nat)
    requires p < |artifacts| && AllPass(steps(p))
    ensures SendPhoto(to, CachePath(artifacts[p])) in DeliverAll(to, artifacts, steps)
  {
    SiblingsSentFrom(to, artifacts, steps, 0, p);
  }
}

=== FILE: effects.dfy ===
/** The entities the image-generation handlers work on, the observable
    effects they produce, and the counting and ordering vocabulary the
    lifecycle properties are stated in. */
module Effects {
  import opened Outcomes

  type UserId = nat
  type MessageRef = nat

  /** A bot user: `name` stands for `GetUserStr(user.Telegram)`, and
      `hasWallet` is false exactly when `user.Wallet == nil`. */
  datatype User = User(id: UserId, name: string, hasWallet: bool)

  /** Per-user session state: `Idle` is the state `ResetUserState` leaves,
      `EnterDallePrompt` is `lnbits.UserEnterDallePrompt`. */
  datatype UserState = Idle | EnterDallePrompt

  /** The invoice callback that routes a paid event to the image generator. */
  datatype Callback = GenerateDalle

  /** The arguments of one invoice creation: the wallet that receives the
      payment, the amount, the memo, the callback and its payload. */
  datatype InvoiceRequest = InvoiceRequest(
    wallet: UserId, amount: int, memo: string, callback: Callback, payload: string)

  /** An invoice event as it is written to the key-value store. `message` is
      the reference the creation left on it; `invoiceMessage` is the QR
      message attached afterwards. */
  datatype InvoiceRecord = InvoiceRecord(
    paymentRequest: string,
    request: InvoiceRequest,
    payer: User,
    message: Option<MessageRef>,
    invoiceMessage: Option<MessageRef>)

  /** Resources a delivery opens and releases with `defer ... Close()`. */
  datatype Handle = DownloadStream(artifact: string) | WriteFile(path: string) | ReadFile(path: string)

  datatype Effect =
    | SetState(user: UserId, state: UserState)
    | AskPrompt(user: UserId)
    | CreateInvoice(request: InvoiceRequest)
    | StoreInvoice(record: InvoiceRecord)
    | SendPayMessage(user: UserId)
    | InternalPay(user: UserId, command: string)
    | EditMessage(message: Option<MessageRef>)
    | SendQR(user: UserId, paymentRequest: string)
    | SendWait(user: UserId)
    | Submit(prompt: string)
    | Poll(task: string)
    | Refund(user: UserId)
    | RefundInvoice(wallet: UserId, amount: int, outgoing: bool, memo: string)
    | PayInvoice(wallet: UserId, bolt11: string, outgoing: bool)
    | Deliver(artifact: string)
    | Download(artifact: string)
    | CreateFile(path: string)
    | CopyToFile(path: string)
    | OpenFile(path: string)
    | SendPhoto(user: UserId, path: string)
    | Close(handle: Handle)

  /** What a handler did, in order, and what it returned. */
  datatype Run = Run(effects: seq<Effect>, result: Outcome)

  predicate IsCreateInvoice(e: Effect) { e.CreateInvoice? }
  predicate IsStoreInvoice(e: Effect) { e.StoreInvoice? }
  predicate IsInternalPay(e: Effect) { e.InternalPay? }
  predicate IsSendQR(e: Effect) { e.SendQR? }
  predicate IsSubmit(e: Effect) { e.Submit? }
  predicate IsPoll(e: Effect) { e.Poll? }
  predicate IsRefund(e: Effect) { e.Refund? }
  predicate IsPayInvoice(e: Effect) { e.PayInvoice? }
  predicate IsDeliver(e: Effect) { e.Deliver? }
  predicate IsClose(e: Effect) { e.Close? }
  predicate IsWork(e: Effect) { !e.Close? }

  /** The two legs of a compensating refund. */
  predicate IsRefundLeg(e: Effect) { e.RefundInvoice? || e.PayInvoice? }

  /** Everything one artifact delivery may do. */
  predicate IsDeliveryStep(e: Effect) {
    e.Deliver? || e.Download? || e.CreateFile? || e.CopyToFile? || e.OpenFile? || e.SendPhoto? || e.Close?
  }

  /** Number of effects satisfying `p`. */
  function Count(es: seq<Effect>, p: Effect -> bool): (n: nat)
    ensures n <= |es|
  {
    if |es| == 0 then 0 else (if p(es[0]) then 1 else 0) + Count(es[1..], p)
  }

  lemma {:induction false} CountAppend(a: seq<Effect>, b: seq<Effect>, p: Effect -> bool)
    ensures Count(a + b, p) == Count(a, p) + Count(b, p)
  {
    if |a| == 0 {
      assert a + b == b;
    } else {
      assert (a + b)[1..] == a[1..] + b;
      CountAppend(a[1..], b, p);
    }
  }

  lemma {:induction false} CountZero(es: seq<Effect>, p: Effect -> bool)
    ensures Count(es, p) == 0 <==> forall e :: e in es ==> !p(e)
  {
    if |es| > 0 {
      assert es == [es[0]] + es[1..];
      CountZero(es[1..], p);
    }
  }

  /** Every effect satisfying `p` comes before every effect satisfying `q`. */
  ghost predicate Precedes(es: seq<Effect>, p: Effect -> bool, q: Effect -> bool) {
    forall i, j :: 0 <= i < |es| && 0 <= j < |es| && p(es[i]) && q(es[j]) ==> i < j
  }

  lemma PrecedesAppend(a: seq<Effect>, b: seq<Effect>, p: Effect -> bool, q: Effect -> bool)
    requires forall e :: e in a ==> !q(e)
    requires forall e :: e in b ==> !p(e)
    ensures Precedes(a + b, p, q)
  {
  }

  lemma PrecedesByCount(a: seq<Effect>, b: seq<Effect>, p: Effect -> bool, q: Effect -> bool)
    requires Count(a, q) == 0 && Count(b, p) == 0
    ensures Precedes(a + b, p, q)
  {
    CountZero(a, q);
    CountZero(b, p);
    PrecedesAppend(a, b, p, q);
  }

  /** A property every effect of two traces has holds of their concatenation. */
  lemma AllAppend(a: seq<Effect>, b: seq<Effect>, p: Effect -> bool)
    requires forall e :: e in a ==> p(e)
    requires forall e :: e in b ==> p(e)
    ensures forall e :: e in a + b ==> p(e)
  {
  }

  /** Appending effects that never satisfy `p` keeps the order. */
  lemma PrecedesExtend(a: seq<Effect>, b: seq<Effect>, p: Effect -> bool, q: Effect -> bool)
    requires Precedes(a, p, q) && Count(b, p) == 0
    ensures Precedes(a + b, p, q)
  {
    CountZero(b, p);
    forall i, j | 0 <= i < |a + b| && 0 <= j < |a + b| && p((a + b)[i]) && q((a + b)[j])
      ensures i < j
    {
      if i < |a| && j < |a| {
        assert (a + b)[i] == a[i] && (a + b)[j] == a[j];
      }
    }
  }

  /** The artifact ids of the delivery attempts, in order. */
  function Attempts(es: seq<Effect>): (ids: seq<string>)
    ensures |ids| == Count(es, IsDeliver)
  {
    if |es| == 0 then []
    else (if es[0].Deliver? then [es[0].artifact] else []) + Attempts(es[1..])
  }

  lemma {:induction false} AttemptsAppend(a: seq<Effect>, b: seq<Effect>)
    ensures Attempts(a + b) == Attempts(a) + Attempts(b)
  {
    if |a| == 0 {
      assert a + b == b;
    } else {
      assert (a + b)[1..] == a[1..] + b;
      AttemptsAppend(a[1..], b);
    }
  }

  lemma {:induction false} AttemptsNone(es: seq<Effect>)
    requires forall e :: e in es ==> !e.Deliver?
    ensures Attempts(es) == []
  {
    if |es| > 0 {
      assert es[0] in es;
      assert forall e :: e in es[1..] ==> e in es;
      AttemptsNone(es[1..]);
    }
  }

  /** The handles released, in release order. */
  function Closed(es: seq<Effect>): (hs: seq<Handle>)
    ensures |hs| == Count(es, IsClose)
  {
    if |es| == 0 then []
    else (if es[0].Close? then [es[0].handle] else []) + Closed(es[1..])
  }

  lemma {:induction false} ClosedAppend(a: seq<Effect>, b: seq<Effect>)
    ensures Closed(a + b) == Closed(a) + Closed(b)
  {
    if |a| == 0 {
      assert a + b == b;
    } else {
      assert (a + b)[1..] == a[1..] + b;
      ClosedAppend(a[1..], b);
    }
  }

  /** The session state of `user` after the effects, starting from `s`. */
  function SessionAfter(s: UserState, user: UserId, es: seq<Effect>): UserState
    decreases |es|
  {
    if |es| == 0 then s
    else SessionAfter(if es[0].SetState? && es[0].user == user then es[0].state else s, user, es[1..])
  }

  lemma {:induction false} SessionAfterAppend(s: UserState, user: UserId, a: seq<Effect>, b: seq<Effect>)
    ensures SessionAfter(s, user, a + b) == SessionAfter(SessionAfter(s, user, a), user, b)
    decreases |a|
  {
    if |a| > 0 {
      assert (a + b)[1..] == a[1..] + b;
      SessionAfterAppend(if a[0].SetState? && a[0].user == user then a[0].state else s, user, a[1..], b);
    } else {
      assert a + b == b;
    }
  }

  /** Effects that set no session state leave every session where it was. */
  lemma {:induction false} SessionUntouched(s: UserState, user: UserId, es: seq<Effect>)
    requires forall e :: e in es ==> !e.SetState?
    ensures SessionAfter(s, user, es) == s
    decreases |es|
  {
    if |es| > 0 {
      assert es[0] in es;
      assert forall e :: e in es[1..] ==> e in es;
      SessionUntouched(s, user, es[1..]);
    }
  }
}

=== FILE: invoice_gate.dfy ===
/** `confirmGenerateImages`: turns a captured prompt into an invoice priced at
    the configured image price, then either pays it internally from the
    user's balance or shows it as a QR code. */
module InvoiceGate {
  import opened Outcomes
  import opened Effects

  /** What invoice creation hands back: the payment request and the message
      reference the invoice event carries. */
  datatype CreatedInvoice = CreatedInvoice(paymentRequest: string, message: Option<MessageRef>)

  /** The answers of the collaborators `confirmGenerateImages` calls, in call order. */
  datatype ConfirmWorld = ConfirmWorld(
    me: Result<User>,                  // GetUser(bot.Telegram.Me): the bot's own user
    invoice: Result<CreatedInvoice>,   // createInvoiceWithEvent
    balance: Result<int>,              // GetUserBalance(user)
    payHandler: Outcome,               // payHandler on the rewritten "/pay" command
    qr: Outcome,                       // qrcode.Encode of the payment request
    qrMessage: Option<MessageRef>)     // the message trySendMessage returns for the QR photo

  /** The invoice memo: "DALLE2 " followed by the user's display string. */
  function Memo(user: User): string
  {
    "DALLE2 " + user.name
  }

  /** The command the internal payment path hands to the pay handler. */
  function PayCommand(paymentRequest: string): string
  {
    "/pay " + paymentRequest
  }

  /** The balance the handler compares with the price: a failed lookup is
      only logged and leaves the zero balance it returned. */
  function BalanceSeen(balance: Result<int>): int
  {
    if balance.Success? then balance.value else 0
  }

  /** True when the handler gets as far as creating an invoice. */
  predicate ReachesInvoice(user: User, prompt: string, w: ConfirmWorld)
  {
    |prompt| > 0 && user.hasWallet && w.me.Success?
  }

  /** True when an invoice was created and stored. */
  predicate InvoiceCreated(user: User, prompt: string, w: ConfirmWorld)
  {
    ReachesInvoice(user, prompt, w) && w.invoice.Success?
  }

  /** Everything after the invoice was created and its event registered:
      store it, announce it, then pay it internally when the balance seen
      covers the price, or else show it as a QR code and store it again with
      the QR message. */
  function Settle(user: User, request: InvoiceRequest, inv: CreatedInvoice, price: int, w: ConfirmWorld): (r: Run)
    ensures forall e :: e in r.effects ==> !e.SetState? && !e.CreateInvoice?
    ensures forall e :: e in r.effects && e.StoreInvoice? ==>
              e.record.request == request && e.record.payer == user
              && e.record.paymentRequest == inv.paymentRequest
  {
    var record := InvoiceRecord(inv.paymentRequest, request, user, inv.message, None);
    var announced := [StoreInvoice(record), SendPayMessage(user.id)];
    if BalanceSeen(w.balance) >= price then
      Run(announced + [InternalPay(user.id, PayCommand(inv.paymentRequest))], w.payHandler)
    else if w.qr.Fail? then
      Run(announced + [EditMessage(inv.message)], w.qr)
    else
      Run(announced + [SendQR(user.id, inv.paymentRequest),
                       StoreInvoice(record.(invoiceMessage := w.qrMessage))], Pass)
  }

  /** The handler after the session reset: the prompt and wallet checks, the
      bot lookup, the invoice creation, then `Settle`. */
  function Checked(user: User, prompt: string, price: int, w: ConfirmWorld): (r: Run)
    ensures forall e :: e in r.effects ==> !e.SetState?
    ensures |prompt| == 0 ==> r == Run([], Fail(PromptNotGiven))
    ensures |prompt| > 0 && !user.hasWallet ==> r == Run([], Fail(UserHasNoWallet))
    ensures |prompt| > 0 && user.hasWallet && w.me.Failure? ==> r == Run([], Fail(w.me.error))
    ensures ReachesInvoice(user, prompt, w) && w.invoice.Failure? ==>
              r == Run([CreateInvoice(InvoiceRequest(w.me.value.id, price, Memo(user), GenerateDalle, prompt))], Fail(w.invoice.error))
    ensures !ReachesInvoice(user, prompt, w) ==> forall e :: e in r.effects ==> !e.CreateInvoice?
    ensures ReachesInvoice(user, prompt, w) ==>
              |r.effects| >= 1 && r.effects[0] == CreateInvoice(InvoiceRequest(w.me.value.id, price, Memo(user), GenerateDalle, prompt))
              && forall e :: e in r.effects[1..] ==> !e.CreateInvoice?
    ensures forall e :: e in r.effects && e.StoreInvoice? ==>
              e.record.request.amount == price && e.record.request.payload == prompt && e.record.payer == user
              && w.invoice.Success? && e.record.paymentRequest == w.invoice.value.paymentRequest
    ensures r.result.Pass? ==> InvoiceCreated(user, prompt, w)
  {
    if |prompt| == 0 then Run([], Fail(PromptNotGiven))
    else if !user.hasWallet then Run([], Fail(UserHasNoWallet))
    else match w.me
      case Failure(e) => Run([], Fail(e))
      case Success(me) =>
        var request := InvoiceRequest(me.id, price, Memo(user), GenerateDalle, prompt);
        match w.invoice
        case Failure(e) => Run([CreateInvoice(request)], Fail(e))
        case Success(inv) =>
          var settled := Settle(user, request, inv, price, w);
          assert ([CreateInvoice(request)] + settled.effects)[1..] == settled.effects;
          Run([CreateInvoice(request)] + settled.effects, settled.result)
  }

  function ConfirmGenerateImages(user: User, prompt: string, price: int, w: ConfirmWorld): (r: Run)
    ensures |r.effects| >= 1 && r.effects[0] == SetState(user.id, Idle)
    ensures forall e :: e in r.effects[1..] ==> !e.SetState?
    ensures |prompt| == 0 ==> r == Run([SetState(user.id, Idle)], Fail(PromptNotGiven))
    ensures |prompt| > 0 && !user.hasWallet ==> r == Run([SetState(user.id, Idle)], Fail(UserHasNoWallet))
    ensures |prompt| > 0 && user.hasWallet && w.me.Failure? ==> r == Run([SetState(user.id, Idle)], Fail(w.me.error))
    ensures ReachesInvoice(user, prompt, w) && w.invoice.Failure? ==>
              r == Run([SetState(user.id, Idle), CreateInvoice(InvoiceRequest(w.me.value.id, price, Memo(user), GenerateDalle, prompt))],
                       Fail(w.invoice.error))
    ensures ReachesInvoice(user, prompt, w) ==>
              CreateInvoice(InvoiceRequest(w.me.value.id, price, Memo(user), GenerateDalle, prompt)) in r.effects
    ensures !ReachesInvoice(user, prompt, w) ==> forall e :: e in r.effects ==> !e.CreateInvoice?
    ensures forall e :: e in r.effects && e.CreateInvoice? ==>
              e.request.amount == price && e.request.payload == prompt && e.request.callback == GenerateDalle
    ensures forall e :: e in r.effects && e.StoreInvoice? ==>
              e.record.request.amount == price && e.record.request.payload == prompt && e.record.payer == user
              && w.invoice.Success? && e.record.paymentRequest == w.invoice.value.paymentRequest
    ensures r.result.Pass? ==> InvoiceCreated(user, prompt, w)
  {
    var rest := Checked(user, prompt, price, w);
    var es := [SetState(user.id, Idle)] + rest.effects;
    assert es[1..] == rest.effects;
    assert forall e :: e in es && e.CreateInvoice? ==> e in rest.effects;
    assert ReachesInvoice(user, prompt, w) ==> forall e :: e in rest.effects && e.CreateInvoice? ==> e == rest.effects[0] by {
      if ReachesInvoice(user, prompt, w) {
        assert rest.effects == [rest.effects[0]] + rest.effects[1..];
      }
    }
    Run(es, rest.result)
  }

  /** An empty prompt, a missing wallet or a failed bot lookup creates no
      invoice; otherwise exactly one invoice is created. */
  lemma InvoiceCount(user: User, prompt: string, price: int, w: ConfirmWorld)
    ensures Count(ConfirmGenerateImages(user, prompt, price, w).effects, IsCreateInvoice)
            == if ReachesInvoice(user, prompt, w) then 1 else 0
  {
    var rest := Checked(user, prompt, price, w).effects;
    CountAppend([SetState(user.id, Idle)], rest, IsCreateInvoice);
    if ReachesInvoice(user, prompt, w) {
      assert rest == [rest[0]] + rest[1..];
      CountAppend([rest[0]], rest[1..], IsCreateInvoice);
      CountZero(rest[1..], IsCreateInvoice);
    } else {
      CountZero(rest, IsCreateInvoice);
    }
  }

  /** The request an invoice created for `prompt` carries. */
  function RequestFor(user: User, prompt: string, price: int, w: ConfirmWorld): InvoiceRequest
    requires w.me.Success?
  {
    InvoiceRequest(w.me.value.id, price, Memo(user), GenerateDalle, prompt)
  }

  /** Once the invoice exists, what the handler does is what `Settle` does,
      as far as any kind of effect other than the reset and the creation is
      concerned. */
  lemma CountsPastCreation(user: User, prompt: string, price: int, w: ConfirmWorld, p: Effect -> bool)
    requires InvoiceCreated(user, prompt, w)
    requires !p(SetState(user.id, Idle)) && !p(CreateInvoice(RequestFor(user, prompt, price, w)))
    ensures Count(ConfirmGenerateImages(user, prompt, price, w).effects, p)
            == Count(Settle(user, RequestFor(user, prompt, price, w), w.invoice.value, price, w).effects, p)
  {
  }

  /** The payments and QR codes `Settle` produces: one internal payment
      exactly when the balance seen covers the price, and then no QR code;
      otherwise one store, or two when the QR code was shown. */
  lemma SettleCounts(user: User, request: InvoiceRequest, inv: CreatedInvoice, price: int, w: ConfirmWorld)
    ensures var es := Settle(user, request, inv, price, w).effects;
      && Count(es, IsInternalPay) == (if BalanceSeen(w.balance) >= price then 1 else 0)
      && (BalanceSeen(w.balance) >= price ==> Count(es, IsSendQR) == 0)
      && Count(es, IsStoreInvoice) == (if BalanceSeen(w.balance) < price && w.qr.Pass? then 2 else 1)
  {
    var record := InvoiceRecord(inv.paymentRequest, request, user, inv.message, None);
    var announced := [StoreInvoice(record), SendPayMessage(user.id)];
    var es := Settle(user, request, inv, price, w).effects;
    var tail := es[2..];
    assert es == announced + tail;
    assert announced == [StoreInvoice(record)] + [SendPayMessage(user.id)];
    CountAppend([StoreInvoice(record)], [SendPayMessage(user.id)], IsStoreInvoice);
    CountAppend(announced, tail, IsStoreInvoice);
    CountAppend(announced, tail, IsInternalPay);
    CountAppend(announced, tail, IsSendQR);
    CountZero(announced, IsInternalPay);
    CountZero(announced, IsSendQR);
    if BalanceSeen(w.balance) < price && w.qr.Pass? {
      assert tail == [SendQR(user.id, inv.paymentRequest)] + [StoreInvoice(record.(invoiceMessage := w.qrMessage))];
      CountAppend([SendQR(user.id, inv.paymentRequest)], [StoreInvoice(record.(invoiceMessage := w.qrMessage))], IsStoreInvoice);
    }
  }

  /** Once an invoice exists, the internal payment path is taken exactly when
      the balance seen covers the price, and its outcome is the handler's. */
  lemma InternalPayIffCovered(user: User, prompt: string, price: int, w: ConfirmWorld)
    requires InvoiceCreated(user, prompt, w)
    ensures var r := ConfirmGenerateImages(user, prompt, price, w);
      && (InternalPay(user.id, PayCommand(w.invoice.value.paymentRequest)) in r.effects
          <==> BalanceSeen(w.balance) >= price)
      && (BalanceSeen(w.balance) >= price ==> r.result == w.payHandler)
  {
  }

  /** Covered: exactly one internal payment and no QR code; not covered: no
      internal payment at all. */
  lemma PaysOnceOrNever(user: User, prompt: string, price: int, w: ConfirmWorld)
    requires InvoiceCreated(user, prompt, w)
    ensures var es := ConfirmGenerateImages(user, prompt, price, w).effects;
      && Count(es, IsInternalPay) == (if BalanceSeen(w.balance) >= price then 1 else 0)
      && (BalanceSeen(w.balance) >= price ==> Count(es, IsSendQR) == 0)
  {
    CountsPastCreation(user, prompt, price, w, IsInternalPay);
    CountsPastCreation(user, prompt, price, w, IsSendQR);
    SettleCounts(user, RequestFor(user, prompt, price, w), w.invoice.value, price, w);
  }

  /** The invoice is stored, with the payer attached, right after the session
      reset and its creation, so before it is paid through "/pay" or shown as
      a QR code: the paid event finds the prompt through that stored record. */
  lemma StoredBeforeShown(user: User, prompt: string, price: int, w: ConfirmWorld)
    requires InvoiceCreated(user, prompt, w)
    ensures var es := ConfirmGenerateImages(user, prompt, price, w).effects;
      && |es| > 2 && es[2].StoreInvoice? && es[2].record.payer == user
      && es[2].record.paymentRequest == w.invoice.value.paymentRequest
      && forall j :: 0 <= j < |es| && (es[j].InternalPay? || es[j].SendQR?) ==> 2 < j
  {
    var settled := Settle(user, RequestFor(user, prompt, price, w), w.invoice.value, price, w);
    var checked := [CreateInvoice(RequestFor(user, prompt, price, w))] + settled.effects;
    assert Checked(user, prompt, price, w) == Run(checked, settled.result);
  }

  /** A QR code that cannot be encoded turns the invoice message into an
      error notice and fails the handler with the encoder's error; no QR code
      is sent. */
  lemma QrFailureEditsInvoice(user: User, prompt: string, price: int, w: ConfirmWorld)
    requires InvoiceCreated(user, prompt, w)
    requires BalanceSeen(w.balance) < price && w.qr.Fail?
    ensures var r := ConfirmGenerateImages(user, prompt, price, w);
      && r.result == w.qr
      && EditMessage(w.invoice.value.message) in r.effects
      && forall e :: e in r.effects ==> !e.SendQR?
  {
    var request := RequestFor(user, prompt, price, w);
    var inv := w.invoice.value;
    var record := InvoiceRecord(inv.paymentRequest, request, user, inv.message, None);
    var settled := Settle(user, request, inv, price, w);
    assert settled == Run([StoreInvoice(record), SendPayMessage(user.id), EditMessage(inv.message)], w.qr);
    assert Checked(user, prompt, price, w) == Run([CreateInvoice(request)] + settled.effects, w.qr);
    assert ConfirmGenerateImages(user, prompt, price, w).effects
        == [SetState(user.id, Idle), CreateInvoice(request), StoreInvoice(record), SendPayMessage(user.id), EditMessage(inv.message)];
  }

  /** Below the price, with the QR code encoded, the invoice is stored twice:
      first as created, then again carrying the QR message, and the handler
      succeeds having shown the payment request. */
  lemma QrPathStoresTwice(user: User, prompt: string, price: int, w: ConfirmWorld)
    requires InvoiceCreated(user, prompt, w)
    requires BalanceSeen(w.balance) < price && w.qr.Pass?
    ensures var r := ConfirmGenerateImages(user, prompt, price, w);
      && r.result == Pass
      && SendQR(user.id, w.invoice.value.paymentRequest) in r.effects
      && Count(r.effects, IsStoreInvoice) == 2
      && r.effects[|r.effects| - 1].StoreInvoice?
      && r.effects[|r.effects| - 1].record.invoiceMessage == w.qrMessage
  {
    var request := RequestFor(user, prompt, price, w);
    var inv := w.invoice.value;
    var record := InvoiceRecord(inv.paymentRequest, request, user, inv.message, None);
    var shown := StoreInvoice(record.(invoiceMessage := w.qrMessage));
    var settled := Settle(user, request, inv, price, w);
    assert settled == Run([StoreInvoice(record), SendPayMessage(user.id), SendQR(user.id, inv.paymentRequest), shown], Pass);
    var checked := [CreateInvoice(request)] + settled.effects;
    assert Checked(user, prompt, price, w) == Run(checked, Pass);
    var es := [SetState(user.id, Idle)] + checked;
    assert ConfirmGenerateImages(user, prompt, price, w).effects == es;
    assert es[|es| - 1] == shown;
    CountsPastCreation(user, prompt, price, w, IsStoreInvoice);
    SettleCounts(user, request, inv, price, w);
  }

  /** Whatever happened before, the handler leaves the user's session idle,
      so an earlier captured prompt can never be picked up again. */
  lemma ConfirmLeavesSessionIdle(s: UserState, user: User, prompt: string, price: int, w: ConfirmWorld)
    ensures SessionAfter(s, user.id, ConfirmGenerateImages(user, prompt, price, w).effects) == Idle
  {
    var rest := Checked(user, prompt, price, w).effects;
    SessionAfterAppend(s, user.id, [SetState(user.id, Idle)], rest);
    SessionUntouched(Idle, user.id, rest);
  }

  /** A failed balance lookup never takes the internal payment path when the
      price is positive: the invoice is shown as a QR code instead. */
  lemma FailedBalanceShowsQr(user: User, prompt: string, price: int, w: ConfirmWorld)
    requires InvoiceCreated(user, prompt, w)
    requires w.balance.Failure? && price > 0
    ensures var r := ConfirmGenerateImages(user, prompt, price, w);
      && (forall e :: e in r.effects ==> !e.InternalPay?)
      && (w.qr.Pass? ==> SendQR(user.id, w.invoice.value.paymentRequest) in r.effects)
  {
    var settled := Settle(user, RequestFor(user, prompt, price, w), w.invoice.value, price, w);
    var checked := [CreateInvoice(RequestFor(user, prompt, price, w))] + settled.effects;
    assert Checked(user, prompt, price, w) == Run(checked, settled.result);
    assert BalanceSeen(w.balance) < price;
    assert forall e :: e in settled.effects ==> !e.InternalPay?;
    var es := [SetState(user.id, Idle)] + checked;
    assert ConfirmGenerateImages(user, prompt, price, w).effects == es;
    assert forall e :: e in es ==> e == SetState(user.id, Idle) || e in checked;
  }
}

=== FILE: orchestrator.dfy ===
/** `generateDalleImages`: the handler the paid-invoice event triggers. It
    checks the payer, builds the provider client, submits the prompt once,
    polls until a terminal status or an error, then delivers the artifacts;
    a failure on the way triggers the compensating refund. */
module Orchestrator {
  import opened Outcomes
  import opened Effects
  import opened Polling
  import opened Refund
  import opened Delivery

  /** A paid-invoice event: the payer stored on the invoice (nil-able) and
      the callback data, which is the prompt. */
  datatype PaidEvent = PaidEvent(payer: Option<User>, callbackData: string)

  /** The answers of the collaborators the handler calls. */
  datatype PaidWorld = PaidWorld(
    client: Outcome,                  // dalle.NewHTTPClient with the configured key
    submit: Result<string>,           // Generate: the id of the task it created
    polls: seq<Result<Task>>,         // GetTask replies given before the deadline
    refund: RefundWorld,              // the collaborators of a refund, when one is issued
    delivery: nat -> DeliverySteps)   // the step outcomes of the artifact at each position

  /** Why the handler stopped. */
  datatype Ending =
    | InvalidPayer
    | ClientFailed(error: Error)
    | SubmitFailed(error: Error)
    | PollFailed(error: Error)
    | Finished(task: Task)

  datatype PaidRun = PaidRun(effects: seq<Effect>, ending: Ending)

  predicate ValidPayer(event: PaidEvent)
  {
    event.payer.Some? && event.payer.value.hasWallet
  }

  /** The endings after which a refund has been issued. */
  predicate RefundsOn(ending: Ending)
  {
    ending.ClientFailed? || ending.SubmitFailed? || ending.PollFailed?
    || (ending.Finished? && ending.task.status.Rejected?)
  }

  /** One call of `dalleRefundUser`: its marker, then the legs it ran. Its
      returned error is discarded by the caller. */
  function RefundCall(user: User, price: int, w: RefundWorld): (es: seq<Effect>)
    ensures Count(es, IsRefund) == 1
    ensures Count(es, IsPayInvoice) == if user.hasWallet && w.me.Success? && w.invoice.Success? then 1 else 0
    ensures user.hasWallet && w.me.Success? ==> RefundInvoice(user.id, price, false, RefundMemo) in es
    ensures forall e :: e in es ==> e.Refund? || IsRefundLeg(e)
    ensures forall e :: e in es && e.RefundInvoice? ==> e == RefundInvoice(user.id, price, false, RefundMemo)
  {
    var legs := DalleRefundUser(user, price, w).effects;
    CountAppend([Refund(user.id)], legs, IsRefund);
    CountAppend([Refund(user.id)], legs, IsPayInvoice);
    CountZero(legs, IsRefund);
    [Refund(user.id)] + legs
  }

  function GenerateDalleImages(event: PaidEvent, price: int, w: PaidWorld): (r: PaidRun)
    ensures r.ending.InvalidPayer? <==> !ValidPayer(event)
    ensures r.ending.InvalidPayer? ==> r.effects == []
    ensures r.ending.ClientFailed? <==> ValidPayer(event) && w.client.Fail?
    ensures r.ending.SubmitFailed? <==> ValidPayer(event) && w.client.Pass? && w.submit.Failure?
    ensures r.ending.PollFailed? || r.ending.Finished? <==>
              ValidPayer(event) && w.client.Pass? && w.submit.Success?
    ensures r.ending.ClientFailed? ==> r.ending.error == w.client.error
    ensures r.ending.SubmitFailed? ==> r.ending.error == w.submit.error
    ensures r.ending.Finished? ==> Terminal(r.ending.task.status)
  {
    if !ValidPayer(event) then PaidRun([], InvalidPayer)
    else
      var user := event.payer.value;
      var wait := [SendWait(user.id)];
      if w.client.Fail? then
        PaidRun(wait + RefundCall(user, price, w.refund), ClientFailed(w.client.error))
      else match w.submit
        case Failure(e) =>
          PaidRun([SendWait(user.id), Submit(event.callbackData)] + RefundCall(user, price, w.refund), SubmitFailed(e))
        case Success(id) =>
          var loop := PollLoop(id, w.polls);
          var polled := [SendWait(user.id), Submit(event.callbackData)] + loop.effects;
          match loop.exit
          case Failed(e) => PaidRun(polled + RefundCall(user, price, w.refund), PollFailed(e))
          case Stopped(t) =>
            var refunded := if t.status.Rejected? then RefundCall(user, price, w.refund) else [];
            PaidRun(polled + refunded + DeliverAll(user.id, t.artifacts, w.delivery), Finished(t))
  }

  /** What a run of polls contains: polls and nothing else. */
  lemma PollPhaseCounts(id: string, polls: seq<Result<Task>>)
    ensures var es := PollLoop(id, polls).effects;
      && Count(es, IsPoll) == |es| && Count(es, IsSubmit) == 0 && Count(es, IsRefund) == 0
      && Count(es, IsDeliver) == 0 && Count(es, IsPayInvoice) == 0 && Attempts(es) == []
  {
  }

  /** What a refund call contains: no submission, poll or delivery. */
  lemma RefundPhaseCounts(es: seq<Effect>)
    requires forall e :: e in es ==> e.Refund? || IsRefundLeg(e)
    ensures Count(es, IsSubmit) == 0 && Count(es, IsPoll) == 0 && Count(es, IsDeliver) == 0 && Attempts(es) == []
  {
    CountZero(es, IsSubmit);
    CountZero(es, IsPoll);
    CountZero(es, IsDeliver);
    AttemptsNone(es);
  }

  /** What the delivery loop contains: no submission, poll, refund or payment. */
  lemma DeliveryPhaseCounts(es: seq<Effect>)
    requires forall e :: e in es ==> IsDeliveryStep(e)
    ensures Count(es, IsSubmit) == 0 && Count(es, IsPoll) == 0 && Count(es, IsRefund) == 0
            && Count(es, IsPayInvoice) == 0
  {
    CountZero(es, IsSubmit);
    CountZero(es, IsPoll);
    CountZero(es, IsRefund);
    CountZero(es, IsPayInvoice);
  }

  /** The trace of a valid payer's event read as four phases, in order:
      the opening (the wait message and the submission), the polls, the
      refund if any, and the deliveries if any. */
  function Opening(event: PaidEvent, w: PaidWorld): seq<Effect>
    requires ValidPayer(event)
  {
    var user := event.payer.value;
    if w.client.Fail? then [SendWait(user.id)] else [SendWait(user.id), Submit(event.callbackData)]
  }

  /** True when a task was submitted, so that it is polled. */
  predicate Submitted(w: PaidWorld)
  {
    w.client.Pass? && w.submit.Success?
  }

  function Polled(w: PaidWorld): seq<Effect>
  {
    if Submitted(w) then PollLoop(w.submit.value, w.polls).effects else []
  }

  /** True when the world leads a valid payer's event to a refund. */
  predicate Refunds(w: PaidWorld)
  {
    !Submitted(w) || PollLoop(w.submit.value, w.polls).exit.Failed?
    || PollLoop(w.submit.value, w.polls).exit.task.status.Rejected?
  }

  function Refunded(event: PaidEvent, price: int, w: PaidWorld): seq<Effect>
    requires ValidPayer(event)
  {
    if Refunds(w) then RefundCall(event.payer.value, price, w.refund) else []
  }

  function Delivered(event: PaidEvent, w: PaidWorld): seq<Effect>
    requires ValidPayer(event)
  {
    if Submitted(w) && PollLoop(w.submit.value, w.polls).exit.Stopped? then
      DeliverAll(event.payer.value.id, PollLoop(w.submit.value, w.polls).exit.task.artifacts, w.delivery)
    else []
  }

  /** The handler's trace is its four phases, in order, and its ending says
      which phases ran. */
  lemma Phases(event: PaidEvent, price: int, w: PaidWorld)
    requires ValidPayer(event)
    ensures var r := GenerateDalleImages(event, price, w);
      && r.effects == Opening(event, w) + Polled(w) + Refunded(event, price, w) + Delivered(event, w)
      && (Submitted(w) <==> r.ending.PollFailed? || r.ending.Finished?)
      && (Refunds(w) <==> RefundsOn(r.ending))
      && (r.ending.Finished? <==> Submitted(w) && PollLoop(w.submit.value, w.polls).exit.Stopped?)
      && (r.ending.Finished? ==> r.ending.task == PollLoop(w.submit.value, w.polls).exit.task)
  {
  }

  /** What each phase contains. The opening holds the submission when the
      client was built; the polling phase holds polls only, at least one once
      a task was submitted; the refund phase holds one refund exactly when
      the world leads to one and at most one payment; the delivery phase
      holds one attempt per artifact of the stopped task. No phase holds
      anything the others are counted for. */
  lemma PhaseCounts(event: PaidEvent, price: int, w: PaidWorld)
    requires ValidPayer(event)
    ensures var es := Opening(event, w);
      && Count(es, IsSubmit) == (if w.client.Pass? then 1 else 0)
      && Count(es, IsPoll) == 0 && Count(es, IsRefund) == 0
      && Count(es, IsDeliver) == 0 && Count(es, IsPayInvoice) == 0 && Attempts(es) == []
    ensures var es := Polled(w);
      && Count(es, IsPoll) == |es| && (|es| == 0 <==> !Submitted(w))
      && Count(es, IsSubmit) == 0 && Count(es, IsRefund) == 0
      && Count(es, IsDeliver) == 0 && Count(es, IsPayInvoice) == 0 && Attempts(es) == []
    ensures var es := Refunded(event, price, w);
      && Count(es, IsRefund) == (if Refunds(w) then 1 else 0)
      && Count(es, IsPayInvoice) == (if Refunds(w) && w.refund.me.Success? && w.refund.invoice.Success? then 1 else 0)
      && Count(es, IsSubmit) == 0 && Count(es, IsPoll) == 0
      && Count(es, IsDeliver) == 0 && Attempts(es) == []
    ensures var es := Delivered(event, w);
      && Count(es, IsSubmit) == 0 && Count(es, IsPoll) == 0
      && Count(es, IsRefund) == 0 && Count(es, IsPayInvoice) == 0
      && Attempts(es) == (if Submitted(w) && PollLoop(w.submit.value, w.polls).exit.Stopped?
                          then PollLoop(w.submit.value, w.polls).exit.task.artifacts else [])
  {
    if Submitted(w) {
      PollPhaseCounts(w.submit.value, w.polls);
    }
    RefundPhaseCounts(Refunded(event, price, w));
    DeliveryPhaseCounts(Delivered(event, w));
  }

  /** Every paid event issues at most one refund: exactly one after a client,
      submission or polling error (the deadline included) or a rejection,
      and none after success or for an invalid payer. */
  lemma RefundCount(event: PaidEvent, price: int, w: PaidWorld)
    ensures var r := GenerateDalleImages(event, price, w);
      Count(r.effects, IsRefund) == (if RefundsOn(r.ending) then 1 else 0)
  {
    if ValidPayer(event) {
      Phases(event, price, w);
      PhaseCounts(event, price, w);
      var opening, polls := Opening(event, w), Polled(w);
      var refunds, deliveries := Refunded(event, price, w), Delivered(event, w);
      CountAppend(opening + polls + refunds, deliveries, IsRefund);
      CountAppend(opening + polls, refunds, IsRefund);
      CountAppend(opening, polls, IsRefund);
    }
  }

  /** At most one compensating payment leaves the bot's wallet per paid event. */
  lemma AtMostOneRefundPayment(event: PaidEvent, price: int, w: PaidWorld)
    ensures Count(GenerateDalleImages(event, price, w).effects, IsPayInvoice) <= 1
  {
    if ValidPayer(event) {
      Phases(event, price, w);
      PhaseCounts(event, price, w);
      var opening, polls := Opening(event, w), Polled(w);
      var refunds, deliveries := Refunded(event, price, w), Delivered(event, w);
      CountAppend(opening + polls + refunds, deliveries, IsPayInvoice);
      CountAppend(opening + polls, refunds, IsPayInvoice);
      CountAppend(opening, polls, IsPayInvoice);
    }
  }

  /** A refund the handler issues moves the price back: once the bot's user
      is found and the inbound invoice is created, exactly one payment
      leaves the bot's wallet; otherwise none does. */
  lemma RefundPaysWhenDue(event: PaidEvent, price: int, w: PaidWorld)
    ensures var r := GenerateDalleImages(event, price, w);
      Count(r.effects, IsPayInvoice)
        == (if RefundsOn(r.ending) && w.refund.me.Success? && w.refund.invoice.Success? then 1 else 0)
  {
    if ValidPayer(event) {
      Phases(event, price, w);
      PhaseCounts(event, price, w);
      var opening, polls := Opening(event, w), Polled(w);
      var refunds, deliveries := Refunded(event, price, w), Delivered(event, w);
      CountAppend(opening + polls + refunds, deliveries, IsPayInvoice);
      CountAppend(opening + polls, refunds, IsPayInvoice);
      CountAppend(opening, polls, IsPayInvoice);
    }
  }

  /** Delivery is attempted once per artifact of the last task, in order,
      exactly when polling ended on a terminal status (after a rejection
      too); an early failure attempts none. */
  lemma DeliveryAttempts(event: PaidEvent, price: int, w: PaidWorld)
    ensures var r := GenerateDalleImages(event, price, w);
      Attempts(r.effects) == (if r.ending.Finished? then r.ending.task.artifacts else [])
  {
    if ValidPayer(event) {
      Phases(event, price, w);
      PhaseCounts(event, price, w);
      var opening, polls := Opening(event, w), Polled(w);
      var refunds, deliveries := Refunded(event, price, w), Delivered(event, w);
      AttemptsAppend(opening + polls + refunds, deliveries);
      AttemptsAppend(opening + polls, refunds);
      AttemptsAppend(opening, polls);
    }
  }

  /** The prompt is submitted at most once, and only after the client was
      built. */
  lemma SubmitCount(event: PaidEvent, price: int, w: PaidWorld)
    ensures Count(GenerateDalleImages(event, price, w).effects, IsSubmit)
            == (if ValidPayer(event) && w.client.Pass? then 1 else 0)
  {
    if ValidPayer(event) {
      Phases(event, price, w);
      PhaseCounts(event, price, w);
      var opening, polls := Opening(event, w), Polled(w);
      var refunds, deliveries := Refunded(event, price, w), Delivered(event, w);
      CountAppend(opening + polls + refunds, deliveries, IsSubmit);
      CountAppend(opening + polls, refunds, IsSubmit);
      CountAppend(opening, polls, IsSubmit);
    }
  }

  /** A client or submission failure makes no poll; a submitted task is
      polled once per iteration of the polling loop, so at least once. */
  lemma PollCount(event: PaidEvent, price: int, w: PaidWorld)
    ensures var r := GenerateDalleImages(event, price, w);
      && (Count(r.effects, IsPoll) == 0 <==> !(r.ending.PollFailed? || r.ending.Finished?))
      && (r.ending.PollFailed? || r.ending.Finished? ==>
            Count(r.effects, IsPoll) == |PollLoop(w.submit.value, w.polls).effects|)
  {
    if ValidPayer(event) {
      Phases(event, price, w);
      PhaseCounts(event, price, w);
      var opening, polls := Opening(event, w), Polled(w);
      var refunds, deliveries := Refunded(event, price, w), Delivered(event, w);
      CountAppend(opening + polls + refunds, deliveries, IsPoll);
      CountAppend(opening + polls, refunds, IsPoll);
      CountAppend(opening, polls, IsPoll);
    }
  }

  /** Within one event, submission precedes every poll. */
  lemma SubmitBeforePolls(event: PaidEvent, price: int, w: PaidWorld)
    ensures Precedes(GenerateDalleImages(event, price, w).effects, IsSubmit, IsPoll)
  {
    if ValidPayer(event) {
      Phases(event, price, w);
      PhaseCounts(event, price, w);
      var opening, polls := Opening(event, w), Polled(w);
      var refunds, deliveries := Refunded(event, price, w), Delivered(event, w);
      PrecedesByCount(opening, polls, IsSubmit, IsPoll);
      PrecedesExtend(opening + polls, refunds, IsSubmit, IsPoll);
      PrecedesExtend(opening + polls + refunds, deliveries, IsSubmit, IsPoll);
    }
  }

  /** Polling ends before any refund starts. */
  lemma PollsBeforeRefund(event: PaidEvent, price: int, w: PaidWorld)
    ensures Precedes(GenerateDalleImages(event, price, w).effects, IsPoll, IsRefund)
  {
    if ValidPayer(event) {
      Phases(event, price, w);
      PhaseCounts(event, price, w);
      var opening, polls := Opening(event, w), Polled(w);
      var refunds, deliveries := Refunded(event, price, w), Delivered(event, w);
      CountAppend(opening, polls, IsRefund);
      PrecedesByCount(opening + polls, refunds, IsPoll, IsRefund);
      PrecedesExtend(opening + polls + refunds, deliveries, IsPoll, IsRefund);
    }
  }

  /** Polling ends before any delivery starts. */
  lemma PollsBeforeDeliveries(event: PaidEvent, price: int, w: PaidWorld)
    ensures Precedes(GenerateDalleImages(event, price, w).effects, IsPoll, IsDeliver)
  {
    if ValidPayer(event) {
      Phases(event, price, w);
      PhaseCounts(event, price, w);
      var opening, polls := Opening(event, w), Polled(w);
      var refunds, deliveries := Refunded(event, price, w), Delivered(event, w);
      CountAppend(opening, polls, IsDeliver);
      CountAppend(opening + polls, refunds, IsDeliver);
      CountAppend(opening, polls, IsPoll);
      CountAppend(opening + polls, refunds, IsPoll);
      PrecedesByCount(opening + polls + refunds, deliveries, IsPoll, IsDeliver);
    }
  }

  /** After a rejection the refund is issued before any delivery. */
  lemma RefundBeforeDeliveries(event: PaidEvent, price: int, w: PaidWorld)
    ensures Precedes(GenerateDalleImages(event, price, w).effects, IsRefund, IsDeliver)
  {
    if ValidPayer(event) {
      Phases(event, price, w);
      PhaseCounts(event, price, w);
      var opening, polls := Opening(event, w), Polled(w);
      var refunds, deliveries := Refunded(event, price, w), Delivered(event, w);
      CountAppend(opening, polls, IsDeliver);
      CountAppend(opening + polls, refunds, IsDeliver);
      PrecedesByCount(opening + polls + refunds, deliveries, IsRefund, IsDeliver);
    }
  }

  /** Effect `e` acts on what the invoice carried: a submission sends the
      callback data, a poll asks for the task the submission created, and a
      photo goes to the payer. */
  predicate Routed(e: Effect, event: PaidEvent, w: PaidWorld)
    requires ValidPayer(event)
  {
    && (e.Submit? ==> e.prompt == event.callbackData)
    && (e.Poll? ==> w.submit.Success? && e.task == w.submit.value)
    && (e.SendPhoto? ==> e.user == event.payer.value.id)
  }

  /** Each phase acts only on what the invoice carried. */
  lemma PhasesRouted(event: PaidEvent, price: int, w: PaidWorld)
    requires ValidPayer(event)
    ensures forall e :: e in Opening(event, w) ==> Routed(e, event, w)
    ensures forall e :: e in Polled(w) ==> Routed(e, event, w)
    ensures forall e :: e in Refunded(event, price, w) ==> Routed(e, event, w)
    ensures forall e :: e in Delivered(event, w) ==> Routed(e, event, w)
  {
  }

  /** The paid event acts on what the invoice carried: the prompt submitted
      is the callback data, every poll asks for the task the submission
      created, and every photo goes to the payer. */
  lemma ActsOnInvoiceData(event: PaidEvent, price: int, w: PaidWorld)
    ensures var r := GenerateDalleImages(event, price, w);
      && (forall e :: e in r.effects && e.Submit? ==> e.prompt == event.callbackData)
      && (forall e :: e in r.effects && e.Poll? ==> w.submit.Success? && e.task == w.submit.value)
      && (forall e :: e in r.effects && e.SendPhoto? ==> event.payer.Some? && e.user == event.payer.value.id)
  {
    if ValidPayer(event) {
      Phases(event, price, w);
      PhasesRouted(event, price, w);
      var opening, polls := Opening(event, w), Polled(w);
      var refunds, deliveries := Refunded(event, price, w), Delivered(event, w);
      var routed := (e: Effect) => Routed(e, event, w);
      AllAppend(opening, polls, routed);
      AllAppend(opening + polls, refunds, routed);
      AllAppend(opening + polls + refunds, deliveries, routed);
    }
  }

  /** Every refund invoice is for the configured price and is created on the
      payer's own wallet as an incoming invoice. */
  lemma RefundsArePriced(event: PaidEvent, price: int, w: PaidWorld)
    ensures forall e :: e in GenerateDalleImages(event, price, w).effects && e.RefundInvoice? ==>
              event.payer.Some? && e == RefundInvoice(event.payer.value.id, price, false, RefundMemo)
  {
  }
}

=== FILE: outcomes.dfy ===
/** Failure-carrying values returned by the handlers and by every collaborator
    they call (the wallet backend, the image provider, the file system). */
module Outcomes {

  /** The errors the handlers raise themselves, the deadline error the
      five-minute context produces, and any error a collaborator reports. */
  datatype Error =
    | UserHasNoWallet
    | PromptNotGiven
    | DeadlineExceeded
    | Collaborator(message: string)

  /** A nil-able reference. */
  datatype Option<+T> = None | Some(value: T)

  /** A value-carrying call that may fail: Go's `(T, error)` pair. */
  datatype Result<+T> = Success(value: T) | Failure(error: Error)

  /** A call that only reports whether it failed: Go's lone `error`. */
  datatype Outcome = Pass | Fail(error: Error)
}

=== FILE: polling.dfy ===
/** The status-polling loop of `generateDalleImages`: one `GetTask` per
    iteration, until a reply reports an error or a terminal status. */
module Polling {
  import opened Outcomes
  import opened Effects

  /** A provider task status: `Pending` stands for every status other than
      succeeded and rejected. */
  datatype Status = Succeeded | Rejected | Pending(name: string)

  /** A provider task: its id, status and the ids of its generations. */
  datatype Task = Task(id: string, status: Status, artifacts: seq<string>)

  predicate Terminal(s: Status)
  {
    s.Succeeded? || s.Rejected?
  }

  /** A reply that ends the loop: an error, or a terminal status. */
  predicate Stops(reply: Result<Task>)
  {
    reply.Failure? || Terminal(reply.value.status)
  }

  /** The reply to the `k`-th `GetTask`. The replies the provider gives
      before the five-minute deadline are `polls`; any call after them fails
      with the deadline error. */
  function Reply(polls: seq<Result<Task>>, k: nat): Result<Task>
  {
    if k < |polls| then polls[k] else Failure(DeadlineExceeded)
  }

  /** How the loop ended: with an error, or with the task in a terminal status. */
  datatype Exit = Failed(error: Error) | Stopped(task: Task)

  datatype Loop = Loop(effects: seq<Effect>, exit: Exit)

  function ExitOf(reply: Result<Task>): Exit
  {
    if reply.Failure? then Failed(reply.error) else Stopped(reply.value)
  }

  /** Polls task `id` until a reply stops the loop. The loop makes exactly
      one call per reply up to and including the first stopping one, every
      call asks for the submitted id, and the exit is read off that reply. */
  function PollLoop(id: string, polls: seq<Result<Task>>): (r: Loop)
    ensures |r.effects| >= 1
    ensures forall e :: e in r.effects ==> e == Poll(id)
    ensures |r.effects| <= |polls| + 1
    ensures forall j :: 0 <= j < |r.effects| - 1 ==> !Stops(polls[j])
    ensures Stops(Reply(polls, |r.effects| - 1))
    ensures r.exit == ExitOf(Reply(polls, |r.effects| - 1))
    decreases |polls|
  {
    if |polls| == 0 || Stops(polls[0]) then Loop([Poll(id)], ExitOf(Reply(polls, 0)))
    else
      var rest := PollLoop(id, polls[1..]);
      assert Reply(polls, |rest.effects|) == Reply(polls[1..], |rest.effects| - 1);
      assert forall j :: 1 <= j < |rest.effects| ==> polls[j] == polls[1..][j - 1];
      Loop([Poll(id)] + rest.effects, rest.exit)
  }

  /** The loop stops at the first stopping reply, and its exit is read off
      that reply. */
  lemma StopsAtFirst(id: string, polls: seq<Result<Task>>, n: nat)
    requires n < |polls| && Stops(polls[n])
    requires forall j :: 0 <= j < n ==> !Stops(polls[j])
    ensures |PollLoop(id, polls).effects| == n + 1
    ensures PollLoop(id, polls).exit == ExitOf(polls[n])
  {
  }

  /** When no reply before the deadline stops the loop, it makes one call
      per reply plus the one the deadline answers, and fails with the
      deadline error. */
  lemma RunsOutAtDeadline(id: string, polls: seq<Result<Task>>)
    requires forall j :: 0 <= j < |polls| ==> !Stops(polls[j])
    ensures |PollLoop(id, polls).effects| == |polls| + 1
    ensures PollLoop(id, polls).exit == Failed(DeadlineExceeded)
  {
  }
}

=== FILE: prompt_capture.dfy ===
/** `generateImages`: the `/generate` command either asks for a prompt and
    remembers that it is waiting for one, or forwards the inline text to
    `confirmGenerateImages`. */
module PromptCapture {
  import opened Outcomes
  import opened Effects
  import opened Text
  import opened InvoiceGate

  /** The answers `generateImages` depends on: the memo text
      `GetMemoFromCommand(text, 1)` extracts, and the world the confirm step
      meets. */
  datatype PromptWorld = PromptWorld(memo: string, confirm: ConfirmWorld)

  /** True when the command carries text after the command word. */
  predicate HasInlinePrompt(text: string)
  {
    |Split(text, ' ')| >= 2
  }

  function GenerateImages(user: User, text: string, price: int, w: PromptWorld): (r: Run)
    ensures !user.hasWallet ==> r == Run([], Fail(UserHasNoWallet))
    ensures user.hasWallet && ' ' !in text ==>
              r == Run([SetState(user.id, EnterDallePrompt), AskPrompt(user.id)], Pass)
    ensures user.hasWallet && ' ' in text ==> r == ConfirmGenerateImages(user, w.memo, price, w.confirm)
  {
    if !user.hasWallet then Run([], Fail(UserHasNoWallet))
    else if !HasInlinePrompt(text) then
      Run([SetState(user.id, EnterDallePrompt), AskPrompt(user.id)], Pass)
    else ConfirmGenerateImages(user, w.memo, price, w.confirm)
  }

  /** The three outcomes of the command, stated through the session it leaves
      and the invoices it creates: no wallet changes nothing; a bare command
      leaves the user awaiting a prompt with no invoice; a command with text
      leaves the session idle and prices every invoice at the configured
      price with the memo text as its payload. */
  lemma CommandOutcomes(s: UserState, user: User, text: string, price: int, w: PromptWorld)
    ensures var r := GenerateImages(user, text, price, w);
      && (!user.hasWallet ==> SessionAfter(s, user.id, r.effects) == s)
      && (user.hasWallet && ' ' !in text ==>
            SessionAfter(s, user.id, r.effects) == EnterDallePrompt
            && Count(r.effects, IsCreateInvoice) == 0)
      && (user.hasWallet && ' ' in text ==>
            SessionAfter(s, user.id, r.effects) == Idle
            && (forall e :: e in r.effects && e.CreateInvoice? ==>
                  e.request.amount == price && e.request.payload == w.memo))
  {
    var r := GenerateImages(user, text, price, w);
    if user.hasWallet && ' ' !in text {
      assert forall e :: e in r.effects ==> !IsCreateInvoice(e);
      CountZero(r.effects, IsCreateInvoice);
      assert r.effects == [r.effects[0]] + [r.effects[1]];
      SessionAfterAppend(s, user.id, [r.effects[0]], [r.effects[1]]);
      SessionUntouched(EnterDallePrompt, user.id, [r.effects[1]]);
    } else if user.hasWallet {
      ConfirmLeavesSessionIdle(s, user, w.memo, price, w.confirm);
    }
  }
}

=== FILE: refund.dfy ===
/** `dalleRefundUser`: the two-leg compensating transfer. An inbound invoice
    for the image price is created on the user's wallet, then paid from the
    bot's own wallet. */
module Refund {
  import opened Outcomes
  import opened Effects

  /** The answers of the collaborators a refund calls, in call order. */
  datatype RefundWorld = RefundWorld(
    me: Result<User>,      // GetUser(bot.Telegram.Me): the bot's own user
    invoice: Result<string>, // user.Wallet.Invoice: the payment request created
    pay: Outcome)          // me.Wallet.Pay of that payment request

  const RefundMemo: string := "Refund for /generate"

  function DalleRefundUser(user: User, price: int, w: RefundWorld): (r: Run)
    ensures forall e :: e in r.effects ==> IsRefundLeg(e)
    ensures !user.hasWallet ==> r == Run([], Fail(UserHasNoWallet))
    ensures user.hasWallet && w.me.Failure? ==> r == Run([], Fail(w.me.error))
    ensures user.hasWallet && w.me.Success? ==>
              |r.effects| >= 1 && r.effects[0] == RefundInvoice(user.id, price, false, RefundMemo)
    ensures forall e :: e in r.effects && e.RefundInvoice? ==>
              e == RefundInvoice(user.id, price, false, RefundMemo)
    ensures forall e :: e in r.effects && e.PayInvoice? ==>
              w.me.Success? && w.invoice.Success?
              && e == PayInvoice(w.me.value.id, w.invoice.value, true)
    ensures Count(r.effects, IsPayInvoice) == if user.hasWallet && w.me.Success? && w.invoice.Success? then 1 else 0
    ensures r.result.Pass? <==> user.hasWallet && w.me.Success? && w.invoice.Success? && w.pay.Pass?
    ensures r.result.Fail? && user.hasWallet && w.me.Success? ==>
              r.result == (if w.invoice.Failure? then Fail(w.invoice.error) else w.pay)
  {
    if !user.hasWallet then Run([], Fail(UserHasNoWallet))
    else match w.me
      case Failure(e) => Run([], Fail(e))
      case Success(me) =>
        var invoiceLeg := [RefundInvoice(user.id, price, false, RefundMemo)];
        match w.invoice
        case Failure(e) => Run(invoiceLeg, Fail(e))
        case Success(paymentRequest) =>
          var payLeg := [PayInvoice(me.id, paymentRequest, true)];
          assert Count(invoiceLeg + payLeg, IsPayInvoice) == 1 by {
            CountAppend(invoiceLeg, payLeg, IsPayInvoice);
          }
          Run(invoiceLeg + payLeg, w.pay)
  }
}

=== FILE: scenarios.dfy ===
/** Concrete runs of the paid-event handler and of the confirm step. */
module Scenarios {
  import opened Outcomes
  import opened Effects
  import opened Polling
  import opened Refund
  import opened Delivery
  import opened InvoiceGate
  import opened Orchestrator

  const Payer: User := User(7, "payer", true)
  const Bot: User := User(1, "bot", true)
  const Price: int := 1000

  function PendingReply(): Result<Task>
  {
    Success(Task("task-1", Pending("processing"), []))
  }

  const Refunding: RefundWorld := RefundWorld(Success(Bot), Success("lnbc-refund"), Pass)

  /** The first artifact's download fails and the second's steps succeed. */
  function FirstDownloadFails(k: nat): DeliverySteps
  {
    if k == 0 then DeliverySteps(Fail(Collaborator("download failed")), Pass, Pass, Pass)
    else DeliverySteps(Pass, Pass, Pass, Pass)
  }

  /** Two pending replies, then success with two artifacts, the first of
      which fails to download: both are attempted, the second is sent, and
      no refund is issued. */
  lemma SucceededWithOneFailedDownload()
    ensures var done := Task("task-1", Succeeded, ["g1", "g2"]);
      var w := PaidWorld(Pass, Success("task-1"), [PendingReply(), PendingReply(), Success(done)], Refunding, FirstDownloadFails);
      var r := GenerateDalleImages(PaidEvent(Some(Payer), "a red fox"), Price, w);
      && r.ending == Finished(done)
      && Attempts(r.effects) == ["g1", "g2"]
      && SendPhoto(Payer.id, CachePath("g2")) in r.effects
      && Count(r.effects, IsRefund) == 0
      && Count(r.effects, IsPoll) == 3
  {
    var done := Task("task-1", Succeeded, ["g1", "g2"]);
    var polls := [PendingReply(), PendingReply(), Success(done)];
    var w := PaidWorld(Pass, Success("task-1"), polls, Refunding, FirstDownloadFails);
    var event := PaidEvent(Some(Payer), "a red fox");
    StopsAtFirst("task-1", polls, 2);
    Phases(event, Price, w);
    PollCount(event, Price, w);
    RefundCount(event, Price, w);
    DeliveryAttempts(event, Price, w);
    SiblingsStillSent(Payer.id, ["g1", "g2"], FirstDownloadFails, 1);
  }

  function AllSucceed(k: nat): DeliverySteps
  {
    DeliverySteps(Pass, Pass, Pass, Pass)
  }

  /** The provider rejects the task: the payer is refunded once, and the
      handler still goes on to attempt the delivery of the task's artifacts. */
  lemma RejectedIsRefundedAndStillDelivered()
    ensures var rejected := Task("task-1", Rejected, ["g1"]);
      var w := PaidWorld(Pass, Success("task-1"), [PendingReply(), Success(rejected)], Refunding, AllSucceed);
      var r := GenerateDalleImages(PaidEvent(Some(Payer), "a red fox"), Price, w);
      && r.ending == Finished(rejected)
      && Count(r.effects, IsRefund) == 1
      && Attempts(r.effects) == ["g1"]
      && Count(r.effects, IsPoll) == 2
  {
    var rejected := Task("task-1", Rejected, ["g1"]);
    var polls := [PendingReply(), Success(rejected)];
    var w := PaidWorld(Pass, Success("task-1"), polls, Refunding, AllSucceed);
    var event := PaidEvent(Some(Payer), "a red fox");
    StopsAtFirst("task-1", polls, 1);
    Phases(event, Price, w);
    PollCount(event, Price, w);
    RefundCount(event, Price, w);
    DeliveryAttempts(event, Price, w);
  }

  /** The task is still pending when the five-minute deadline passes: the
      poll after the deadline fails, the payer is refunded once, and nothing
      is delivered. */
  lemma DeadlineIsRefunded()
    ensures var w := PaidWorld(Pass, Success("task-1"), [PendingReply(), PendingReply()], Refunding, AllSucceed);
      var r := GenerateDalleImages(PaidEvent(Some(Payer), "a red fox"), Price, w);
      && r.ending == PollFailed(DeadlineExceeded)
      && Count(r.effects, IsRefund) == 1
      && Attempts(r.effects) == []
      && Count(r.effects, IsPoll) == 3
  {
    var polls := [PendingReply(), PendingReply()];
    var w := PaidWorld(Pass, Success("task-1"), polls, Refunding, AllSucceed);
    var event := PaidEvent(Some(Payer), "a red fox");
    RunsOutAtDeadline("task-1", polls);
    Phases(event, Price, w);
    PollCount(event, Price, w);
    RefundCount(event, Price, w);
    DeliveryAttempts(event, Price, w);
  }

  /** A payer whose balance covers the price: one invoice to the bot's
      wallet, paid through the internal "/pay" command, and no QR code. */
  lemma CoveredBalancePaysInternally()
    ensures var w := ConfirmWorld(Success(Bot), Success(CreatedInvoice("lnbc-1", None)), Success(2500), Pass, Pass, None);
      var r := ConfirmGenerateImages(Payer, "a red fox", Price, w);
      && r.result == Pass
      && Count(r.effects, IsCreateInvoice) == 1
      && InternalPay(Payer.id, PayCommand("lnbc-1")) in r.effects
      && Count(r.effects, IsInternalPay) == 1
      && Count(r.effects, IsSendQR) == 0
  {
    var w := ConfirmWorld(Success(Bot), Success(CreatedInvoice("lnbc-1", None)), Success(2500), Pass, Pass, None);
    InvoiceCount(Payer, "a red fox", Price, w);
    InternalPayIffCovered(Payer, "a red fox", Price, w);
    PaysOnceOrNever(Payer, "a red fox", Price, w);
  }
}

=== FILE: text.dfy ===
/** Go's `strings.Split` for a one-character separator, as `generateImages`
    uses it to tell `/generate` from `/generate <prompt>`. */
module Text {

  /** Number of occurrences of `c` in `s`. */
  function Occurrences(s: string, c: char): nat
  {
    if |s| == 0 then 0 else (if s[0] == c then 1 else 0) + Occurrences(s[1..], c)
  }

  /** The pieces of `s` between occurrences of `sep`; like Go, the empty
      string splits into one empty piece. */
  function Split(s: string, sep: char): (parts: seq<string>)
    ensures |parts| == Occurrences(s, sep) + 1
    ensures |parts| >= 2 <==> sep in s
    ensures forall i :: 0 <= i < |parts| ==> sep !in parts[i]
    decreases |s|
  {
    if |s| == 0 then [""]
    else
      var rest := Split(s[1..], sep);
      assert s == [s[0]] + s[1..];
      if s[0] == sep then [""] + rest
      else [[s[0]] + rest[0]] + rest[1..]
  }

  /** The pieces glued back together with `sep` between neighbours. */
  function Join(parts: seq<string>, sep: char): string
  {
    if |parts| == 0 then ""
    else if |parts| == 1 then parts[0]
    else parts[0] + [sep] + Join(parts[1..], sep)
  }

  /** Splitting loses nothing: joining the pieces gives the text back. */
  lemma {:induction false} JoinSplit(s: string, sep: char)
    ensures Join(Split(s, sep), sep) == s
    decreases |s|
  {
    if |s| > 0 {
      var rest := Split(s[1..], sep);
      JoinSplit(s[1..], sep);
      var parts := Split(s, sep);
      if s[0] == sep {
        assert parts == [""] + rest;
        assert parts[1..] == rest;
        assert Join(parts, sep) == "" + [sep] + Join(rest, sep);
      } else {
        assert parts == [[s[0]] + rest[0]] + rest[1..];
        if |rest| == 1 {
          assert Join(parts, sep) == [s[0]] + rest[0];
        } else {
          assert parts[1..] == rest[1..];
          assert Join(rest, sep) == rest[0] + [sep] + Join(rest[1..], sep);
          assert Join(parts, sep) == [s[0]] + rest[0] + [sep] + Join(rest[1..], sep);
        }
      }
      assert s == [s[0]] + s[1..];
    }
  }
}
